=== FILE: README.md ===
# Music player queue model

A Dafny model of the queue and bookkeeping logic of a small local-library music
player. The player is split into two parts:

- The main process (`main.js`) owns the playlist. This is two parallel arrays
  of titles and file paths, their insertion-order copies, a current index and a
  shuffle flag. It also owns the one loaded audio player.
- The renderer (`js/main.js`) keeps the listening scores and the volume. It
  draws the elapsed/duration text, turns shuffle off, and sorts the album list.

Modules:

- `Wrappers`: `Option`, standing for JavaScript's `undefined`.
- `JsText`: the JavaScript primitives the source relies on. These are `split`,
  `join`, `replaceAll`, string `<`, `parseInt` of a number, integer `%` and
  `String(n)`, each with its partner (split/join round trips, a total order for
  `<`, digits that read back).
- `Player`: the playlist record and what `main.js` does with it:
  - the index is a JavaScript number, `At(n)` or `NotANumber`. The value `x % 0`
    on an empty playlist is NaN;
  - next and previous with wrap-around;
  - the Fisher–Yates shuffle, driven by explicit `Math.random()` draws;
  - the `play` guard and the entry guards of `_playMusic`;
  - the current-track getters.
- `Catalog`: how `updateFilesList` turns scanned file names into the
  album → tracks map.
- `Scores`: the listening-score update of `applyMusicChange`.
- `Volume`: the volume buttons.
- `Clock`: the `m:ss/m:ss` text of `drawMusicStatus`.
- `ShuffleToggle`: `toggleRandom`, and above all its shuffle-off restore.
- `Albums`: the album sort comparator, the album display name, and a reference
  sort.

Randomness is a parameter. `rolls[i]` is the `Math.random()` draw made at loop
position `i`, and it must lie in [0, 1). The audio backend is reduced to the
path of the loaded player (`Session.loaded`). A load that passes the guards of
`_playMusic` becomes the loaded path.

When shuffle is turned off and the current path is missing from the ordered
paths, the code leaves the index as it was; it does not fall back to 0
(`ShuffleToggle.RestoreOrder`).

## Model

| member | source | states |
|---|---|---|
| `Player.CurrentMusicTitle` | main.js:151-153 | the title at the current index; '' when the index is off the playlist or NaN |
| `Player.CurrentMusicPath` | main.js:155-157 | the path at the current index; '' when the index is off the playlist or NaN |
| `Player.NextIndex` | main.js:100 | on a non-empty playlist a valid index steps forward and the last wraps to 0; any index at or above 0 lands on the playlist; on an empty playlist or from NaN the index becomes NaN |
| `Player.PrevIndex` | main.js:110 | a valid index steps back and 0 wraps to length − 1; any index at or above 1 − length lands on the playlist; on an empty playlist or from NaN the index becomes NaN |
| `Player.NextPrevInverse` | main.js:100-110 | on a valid index, next and previous undo each other in both orders |
| `Player.PlayMusicTarget` | main.js:21-30 | no path or an empty path is a no-op; the path has every '/' made '\\'; it is loaded exactly when the loaded player does not already have that normalised path |
| `Player.PlayMusic` | main.js:21-35 | a path that passes the guards becomes the loaded path; otherwise nothing changes; the playlist is never touched |
| `Player.Play` | main.js:88-92 | an empty playlist does nothing; on a non-empty one a load starts exactly when `_playMusic`'s guards pass for the current path, and it is the normalised current path, which becomes the loaded path; without a load nothing changes |
| `Player.PlayTwiceLoadsOnce` | main.js:26-30 | a second `play` straight after the first starts no load and changes nothing |
| `Player.PlayNextMusic` | main.js:94-102 | the index steps forward; the player was dropped first, so a non-empty current path is always reloaded, even the same one, and becomes the loaded path; an undefined or '' current path loads nothing and leaves no player |
| `Player.PlayPrevMusic` | main.js:104-112 | the index steps back; the player was dropped first, so a non-empty current path is always reloaded and becomes the loaded path; an undefined or '' current path loads nothing and leaves no player |
| `Player.StartUpStepLosesIndex` | main.js:10-15 | from the start-up globals `play` does nothing and next or previous makes the index NaN; a NaN index stays NaN through every later step and the getters then report no track |
| `Player.NextThenPrevReturns` | main.js:94-112 | next then previous restores the playlist and reloads the track that was current |
| `Player.Normalize` | main.js:26 | the path keeps its length; every '/' becomes '\\' and every other character is kept |
| `Player.NormalizeIdempotent` | main.js:26 | normalising an already normalised path changes nothing |
| `Player.SwapPartner` | main.js:59 | the swap partner for position i lies in 0..i |
| `Player.SwapKeepsPairs` | main.js:61-69 | swapping both arrays in lockstep keeps the multiset of title/path pairs |
| `Player.FollowSwapTracks` | main.js:71-75 | after one swap the index bookkeeping still points at the same title and path; an index off the playlist is untouched |
| `Player.ShuffleFrom` | main.js:58-76 | the loop keeps both lengths, permutes the paths, keeps every title with its path, and keeps the index on the same track |
| `Player.Shuffle` | main.js:55-77 | the shuffle is a permutation of the paths that keeps title/path pairs and the current track; the ordered arrays and the flag are untouched |
| `Player.ShuffleKeepsCurrentTrack` | main.js:71-75 | the current-track getters report the same title and path before and after a shuffle |
| `Catalog.TrackName` | main.js:125-126 | the track name is the longest '\\'-free suffix of the file name |
| `Catalog.AlbumKey` | main.js:125-127 | the album key holds no '\\'; a name without '\\' has the empty key |
| `Catalog.AlbumAndTrackRebuildPath` | main.js:125-127 | for a file name holding a '\\', album key + '/' + track name normalises to the same path as the file name |
| `Catalog.AddFile` | main.js:129-130 | the track is appended to its album's list, which is created empty if absent; other albums are unchanged |
| `Catalog.Scan` | main.js:120-131 | the catalog holds exactly the albums some scanned file belongs to, and each lists exactly its files' track names in scan order (the per-album filter `TracksOf`) |
| `Catalog.ScanListsEveryFile` | main.js:124-130 | every scanned file's track name is listed under its album |
| `Scores.Record` | js/main.js:146-147 | the count goes up by exactly 1; the new sum is the truncated old sum plus the heard share |
| `Scores.ApplyMusicChange` | js/main.js:129-150 | nothing changes for an empty path or a NaN duration; otherwise a missing entry starts at {0, 0}, the count goes up by 1, the sum is the truncated old sum plus elapsed/duration, and no other entry changes |
| `Scores.ReplayKeepsOnlyLastShare` | js/main.js:146-147 | as written, after plays with shares below 1 the count is the number of plays but the sum is only the last share |
| `Scores.ReplayLosesHistory` | js/main.js:147 | two half-heard plays leave 0.5 as written, where the intended sum is 1.0 |
| `Scores.ApplyMusicChangeIntended` | js/main.js:146-147 | the corrected update adds the share to the whole old sum |
| `Scores.ReplayIntendedSums` | js/main.js:146-147 | with the corrected update, an entry holds the number of plays and the sum of all heard shares |
| `Scores.IntendedMeanIsAShare` | js/main.js:147 | with shares in [0, 1], the corrected sum lies between 0 and the play count |
| `Volume.InitialVolume` | js/main.js:17-19 | without a stored value the volume is 50, an even value in 0..100 |
| `Volume.IncreaseVolume` | js/main.js:159-164 | no change at 100 or above, otherwise exactly +2; an even volume in 0..100 stays so |
| `Volume.DecreaseVolume` | js/main.js:166-171 | no change at 0 or below, otherwise exactly −2; an even volume in 0..100 stays so |
| `Volume.StepsUndo` | js/main.js:159-171 | up then down, and down then up, give back the volume away from the stops |
| `Volume.PressesStayOnScale` | js/main.js:159-171 | from an even volume in 0..100, any sequence of presses stays in 0..100 |
| `Volume.OddVolumeOvershoots` | js/main.js:160-162 | the bound needs an even start: from 99, up gives 101 |
| `Clock.SecondsField` | js/main.js:203-207 | the seconds field is two digits, "00" to "59", reading as the whole seconds mod 60 |
| `Clock.MinutesField` | js/main.js:210-211 | the minutes field reads as the whole seconds divided by 60, with no leading zero |
| `Clock.WholeMinutes` | js/main.js:203-211 | ⌊t/60⌋ equals ⌊t⌋ div 60, so the two fields agree |
| `Clock.FormatClock` | js/main.js:203-211 | the text is digits, ':', two digits (first at most 5); minutes × 60 + seconds reads back as ⌊t⌋; the minutes carry no leading zero |
| `Clock.DrawMusicStatus` | js/main.js:193-213 | no redraw when paused and asked to check; "Empty playlist" and "0:00/0:00" for an empty playlist; otherwise the title and both formatted times |
| `Clock.EmptyTextIsZeroClock` | js/main.js:196-198 | the empty-playlist time text is what two zero times format to |
| `ShuffleToggle.IsPlaylistRandom` | main.js:175-177 | the `async` method hands back a promise of the flag, and that promise is truthy whatever the flag |
| `ShuffleToggle.FindFrom` | js/main.js:302-307 | the search finds the first position holding the path, and finds nothing when no position holds it; an undefined path matches nothing |
| `ShuffleToggle.RestoreOrder` | js/main.js:300-310 | the active arrays become the ordered ones; the index moves to the first ordered position of the current path, or stays put when the path is absent |
| `ShuffleToggle.ToggleRandom` | js/main.js:293-319 | corrected toggle, `!` of the awaited flag: the flag flips; switching on permutes the paths and keeps the current path; switching off restores the ordered arrays and moves the index to the current path's ordered position, or leaves it when the path is absent |
| `ShuffleToggle.ToggleTwiceRestores` | js/main.js:293-310 | from the unshuffled state, shuffle on then off brings back the ordered arrays with the same current path |
| `ShuffleToggle.ToggleRandomAsWritten` | js/main.js:295-310 | as written, the new flag is always false and the arrays become the ordered ones |
| `ShuffleToggle.ToggleRandomAsWrittenNeverShuffles` | js/main.js:295-297 | as written, the toggle is always the restore branch, so from shuffle off it never turns shuffle on |
| `Albums.AlbumName` | js/main.js:347-350 | the display name is the longest '/'-free suffix of the album key |
| `Albums.CompareAlbumsAsWritten` | js/main.js:329-345 | -1 whenever the first key is the root; otherwise -1, 0 or 1 as the first name is below, equal to or above the second |
| `Albums.CompareAlbumsAsWrittenDisagrees` | js/main.js:330 | as written, the root and "G:/Musique/Abba" each compare below the other |
| `Albums.SortAsWrittenMisplacesRoot` | js/main.js:329-345 | the stable insertion sort using the comparator as written puts "G:/Musique/Abba" before the root |
| `Albums.CompareAlbums` | js/main.js:329-345 | corrected comparator: the root is below every other key from either side; other keys compare by name |
| `Albums.CompareAlbumsAntisymmetric` | js/main.js:329-345 | the corrected comparator flips sign when its arguments are swapped |
| `Albums.CompareAlbumsIsConsistent` | js/main.js:329-345 | the corrected comparator is antisymmetric and its "not after" is transitive, so it orders every list of keys |
| `Albums.SortAlbums` | js/main.js:323-345 | with the corrected comparator, the sorted album list is a permutation of the keys, starts with the root when present, is ordered by name after it, and keeps albums of the same name in their listed order |
| `Albums.SortByStable` | js/main.js:329-345 | for any consistent comparator, the keys that tie with a given key come out in their input order |
| `Albums.SameNameKeepsOrder` | js/main.js:329-345 | "G:/Musique/A/Best" and "G:/Musique/B/Best" share a name and keep their listed order |

## Left out

- Audio backend: creating, playing, pausing and destroying the `Audic` player
  is not modelled, and neither is reading its time, duration, volume or paused
  state. A load that passes the guards of `_playMusic` counts as the loaded
  path. `pause`, `setVolume` and its division by 100, `getCurrentTime`,
  `getDuration`, `getVolume` and `paused` read or drive the backend only.
- Missing-file and error recovery (main.js:34-52) is not modelled. There, a
  missing file or a thrown error advances to the next track. In the model
  every load succeeds.
- Timers are not modelled: the two-phase end-of-track timer, the 250 ms
  "file list updated" debounce, the 1 s status refresh and the 150 ms remove
  throttle.
- The order in which `prevMusic`/`nextMusic` interleave the awaited player
  teardown with `applyMusicChange` is concurrency and is not modelled.
  `Scores.ApplyMusicChange` takes the path, elapsed time and duration it reads
  as inputs.
- The recursive directory walk and extension filter of `fileScanner` are not
  modelled. `Catalog.Scan` takes the scanned file names in scan order.
- Electron IPC, `remote.getGlobal`, DOM and HTML generation are not modelled.
  This covers `drawPlaylist`, `drawAlbum`, `hideAlbum`, `drawPlayPause`, the
  keyboard handlers, `updateVarsToMain` (not part of this model) and
  `AppDataManager` persistence.
- `addMusic`, `addAlbum`, `removeFromPlayList`, `chooseMusic`, `clearPlayList`
  and `generatePlaylistFromMostLiked` are called, but their bodies are not part
  of this model, so `randomPlayList` is left out too.
- Times and shares are reals. The model does not cover numbers that
  JavaScript prints in exponent notation, which `parseInt` and `String` then
  misread.
- `JsText.Below` compares characters as Unicode scalar values. JavaScript
  compares UTF-16 code units, and the two orders differ only for characters
  outside the Basic Multilingual Plane.
- `Scores.ApplyMusicChange`: requires a non-zero duration when it is not NaN.
  In JavaScript a zero duration (no player) makes the share NaN or Infinity.
- `Scores.ApplyMusicChangeIntended`: requires a non-zero duration, for the
  same reason.
- `Clock.FormatClock`: requires a non-negative time. A NaN duration, which
  JavaScript shows as "NaN:NaN", is not modelled.
- `Clock.DrawMusicStatus`: requires non-negative times, for the same reason.
- `Clock.DrawMusicStatus`: takes one reading of the elapsed time and one of
  the duration. The source reads each twice through separate remote calls, once
  for the seconds and once for the minutes, so on screen the two fields can
  come from different instants (59.9 then 60.1 shows "1:59"). The read-back
  property of `Clock.FormatClock` holds for one reading only.
- `ShuffleToggle.RestoreOrder`: treats the renderer's copies of the playlist
  arrays and index as the main process's globals. The source reads the index
  through `remote.getGlobal` and rewrites the renderer's own arrays; the hand-back
  through `updateVarsToMain`, whose body is not part of this model, is assumed.
- `ShuffleToggle.ToggleRandom`: the same single-playlist assumption; the
  shuffle runs on the main process's arrays while the restore writes the
  renderer's copies, and the two are taken to be one record.
- `Player.Shuffle`: requires the title and path arrays to have equal length.
  The rest of the player keeps that invariant.
- `Albums.SortAlbums`: the source calls the library routine
  `Array.prototype.sort`, which is stable. An insertion sort stands in for
  it; it moves a later key in front of an earlier one only when the
  comparator answers below 0, so ties keep their input order
  (`Albums.SortByStable`). Which pairs the library compares is not modelled,
  so with the comparator as written, whose answers disagree, inputs other
  than the one in the findings may come out differently.

## Findings

| source | as written | input that shows it | evidently intended | confidence | as-written member | corrected member |
|---|---|---|---|---|---|---|
| js/main.js:295 | `!MusicPlayer.isPlaylistRandom()` negates the promise returned by the `async` method at main.js:175-177; a promise is truthy, so the new flag is always false and the shuffle branch is dead | any playlist with shuffle off: toggling leaves it off and never shuffles | the flag flips; switching on shuffles | medium, not executed | `ShuffleToggle.ToggleRandomAsWrittenNeverShuffles` | `ShuffleToggle.ToggleRandom` |
| js/main.js:330 | the comparator answers -1 for (root, x) but compares names for (x, root), so both orders can answer -1 | keys `["G:/Musique", "G:/Musique/Abba"]`: each compares below the other, and an insertion sort puts the root second | the root sorts first whichever side it is on | medium, not executed | `Albums.SortAsWrittenMisplacesRoot` | `Albums.SortAlbums` |
| js/main.js:147 | `parseInt(scoreSum)` drops the fraction of the stored sum before each addition | two plays of one track, each half heard: the sum is 0.5 | the sum of the shares, 1.0, so that sum / count is the mean share | medium, not executed | `Scores.ReplayLosesHistory` | `Scores.ApplyMusicChangeIntended` |

`Scores.ApplyMusicChange` keeps the truncating update as written, because the
stored scores are what the rest of the player reads. The corrected update and
its sum property are proved alongside it.

=== FILE: albums.dfy ===
/**
 The album list of the renderer's `regenerateAlbumList`: album keys are sorted
 by their last '/'-separated piece, with the library root first, and each album
 is shown under that last piece.
 */
module Albums {
  import opened JsText

  /** The library root, which the comparator puts first. */
  const Root := "G:/Musique"

  /** The name an album is shown under (and its icon is looked up by): the last
      '/'-separated piece of its key. `split` always yields a piece, so the
      source's 'noimage' fallback is never taken. */
  function AlbumName(key: string): (name: string)
    ensures '/' !in name
    ensures |name| <= |key| && name == key[|key| - |name|..]
    ensures |name| < |key| ==> key[|key| - |name| - 1] == '/'
  {
    LastSegment(key, '/')
  }

  /** The sort comparator as the source writes it: -1 whenever the first key is
      the root, otherwise the order of the last pieces. */
  function CompareAlbumsAsWritten(a: string, b: string): (r: int)
    ensures -1 <= r <= 1
    ensures a == Root ==> r == -1
    ensures a != Root ==> (r == -1 <==> Below(AlbumName(a), AlbumName(b)))
    ensures a != Root ==> (r == 1 <==> Below(AlbumName(b), AlbumName(a)))
  {
    if a == Root then -1
    else
      var x := AlbumName(a);
      var y := AlbumName(b);
      if Below(y, x) then BelowAsymmetric(y, x); 1
      else if Below(x, y) then -1
      else 0
  }

  /** As written, the comparator can call each of two keys smaller than the
      other: the root against an album whose name sorts before "Musique". */
  lemma CompareAlbumsAsWrittenDisagrees()
    ensures CompareAlbumsAsWritten(Root, "G:/Musique/Abba") == -1
    ensures CompareAlbumsAsWritten("G:/Musique/Abba", Root) == -1
  {
    NameOfAbba();
    NameOfRoot();
    assert Below("Abba", "Musique");
  }

  lemma NameOfAbba()
    ensures AlbumName("G:/Musique/Abba") == "Abba"
  {
    assert "G:/Musique/Abba" == "G:/Musique" + ['/'] + "Abba";
    LastSegmentAfter("G:/Musique", "Abba", '/');
  }

  lemma NameOfRoot()
    ensures AlbumName(Root) == "Musique"
  {
  }

  /** The library sort driven by the comparator as written does not put the
      root first: the later key is compared against the earlier one and goes
      in front of it, since the comparator answers -1. */
  lemma SortAsWrittenMisplacesRoot()
    ensures SortBy(CompareAlbumsAsWritten, [Root, "G:/Musique/Abba"]) == ["G:/Musique/Abba", Root]
  {
    var abba := "G:/Musique/Abba";
    var keys := [Root, abba];
    assert keys[..1] == [Root];
    SortSingle(CompareAlbumsAsWritten, Root);
    InsertAbbaBeforeRoot();
    assert SortBy(CompareAlbumsAsWritten, keys)
        == InsertBy(CompareAlbumsAsWritten, abba, SortBy(CompareAlbumsAsWritten, [Root]));
  }

  lemma SortSingle(cmp: (string, string) -> int, x: string)
    ensures SortBy(cmp, [x]) == [x]
  {
    assert [x][..0] == [];
  }

  lemma InsertAbbaBeforeRoot()
    ensures InsertBy(CompareAlbumsAsWritten, "G:/Musique/Abba", [Root]) == ["G:/Musique/Abba", Root]
  {
    CompareAlbumsAsWrittenDisagrees();
  }

  /*
   * The comparator as evidently intended: the root is smaller than every other
   * key from either side.
   */

  function CompareAlbums(a: string, b: string): (r: int)
    ensures -1 <= r <= 1
    ensures a == Root && b != Root ==> r == -1
    ensures b == Root && a != Root ==> r == 1
    ensures a != Root && b != Root ==>
              (r == -1 <==> Below(AlbumName(a), AlbumName(b)))
              && (r == 1 <==> Below(AlbumName(b), AlbumName(a)))
  {
    if a == Root && b == Root then 0
    else if a == Root then -1
    else if b == Root then 1
    else CompareAlbumsAsWritten(a, b)
  }

  /** Swapping the arguments flips the answer. */
  lemma CompareAlbumsAntisymmetric(a: string, b: string)
    ensures CompareAlbums(a, b) == -CompareAlbums(b, a)
  {
    if a != Root && b != Root {
      BelowTotal(AlbumName(a), AlbumName(b));
      if Below(AlbumName(a), AlbumName(b)) {
        BelowAsymmetric(AlbumName(a), AlbumName(b));
      }
    }
  }

  /** A comparator the sort can rely on: swapping the arguments flips the
      answer, and "not after" is transitive. */
  ghost predicate Consistent(cmp: (string, string) -> int) {
    && (forall a, b :: cmp(a, b) == -cmp(b, a))
    && (forall a, b, c {:trigger cmp(a, b), cmp(b, c), cmp(a, c)} ::
          cmp(a, b) <= 0 && cmp(b, c) <= 0 ==> cmp(a, c) <= 0)
  }

  /** The intended comparator orders all keys: root first, then by name. */
  lemma CompareAlbumsIsConsistent()
    ensures Consistent(CompareAlbums)
  {
    forall a, b
      ensures CompareAlbums(a, b) == -CompareAlbums(b, a)
    {
      CompareAlbumsAntisymmetric(a, b);
    }
    forall a, b, c | CompareAlbums(a, b) <= 0 && CompareAlbums(b, c) <= 0
      ensures CompareAlbums(a, c) <= 0
    {
      if a != Root && c != Root {
        var x, y, z := AlbumName(a), AlbumName(b), AlbumName(c);
        assert b != Root;
        assert !Below(y, x) && !Below(z, y);
        BelowTotal(x, y);
        BelowTotal(y, z);
        if Below(z, x) {
          if Below(x, y) {
            BelowTransitive(z, x, y);
          }
          if Below(y, z) {
            BelowTransitive(y, z, x);
          }
        }
      }
    }
  }

  /*
   * Sorting. `Array.prototype.sort` is stable: a later key goes in front of an
   * earlier one only when the comparator answers below 0.
   */

  ghost predicate SortedBy(cmp: (string, string) -> int, s: seq<string>) {
    forall i, j :: 0 <= i < j < |s| ==> cmp(s[i], s[j]) <= 0
  }

  /** Insert `x` before the first element it compares strictly below. */
  function InsertBy(cmp: (string, string) -> int, x: string, s: seq<string>): (r: seq<string>)
    ensures |r| == |s| + 1
    ensures multiset(r) == multiset(s) + multiset{x}
  {
    if |s| == 0 then [x]
    else if cmp(x, s[0]) < 0 then [x] + s
    else
      assert s == [s[0]] + s[1..];
      [s[0]] + InsertBy(cmp, x, s[1..])
  }

  /** Insertion sort, taking the keys in order. */
  function SortBy(cmp: (string, string) -> int, s: seq<string>): (r: seq<string>)
    ensures multiset(r) == multiset(s)
  {
    if |s| == 0 then []
    else
      assert s == s[..|s| - 1] + [s[|s| - 1]];
      InsertBy(cmp, s[|s| - 1], SortBy(cmp, s[..|s| - 1]))
  }

  lemma {:induction false} InsertKeepsSorted(cmp: (string, string) -> int, x: string, s: seq<string>)
    requires Consistent(cmp) && SortedBy(cmp, s)
    ensures SortedBy(cmp, InsertBy(cmp, x, s))
    decreases |s|
  {
    if |s| > 0 && cmp(x, s[0]) >= 0 {
      var tail := InsertBy(cmp, x, s[1..]);
      InsertKeepsSorted(cmp, x, s[1..]);
      forall j | 0 <= j < |tail|
        ensures cmp(s[0], tail[j]) <= 0
      {
        assert tail[j] in multiset(tail);
        if tail[j] != x {
          assert tail[j] in multiset(s[1..]);
          var k :| 0 <= k < |s[1..]| && s[1..][k] == tail[j];
          assert s[k + 1] == tail[j];
        }
      }
    }
  }

  lemma {:induction false} SortBySorted(cmp: (string, string) -> int, s: seq<string>)
    requires Consistent(cmp)
    ensures SortedBy(cmp, SortBy(cmp, s))
    decreases |s|
  {
    if |s| > 0 {
      SortBySorted(cmp, s[..|s| - 1]);
      InsertKeepsSorted(cmp, s[|s| - 1], SortBy(cmp, s[..|s| - 1]));
    }
  }

  /** The keys of `s` that compare equal to `k`, in their order in `s`. */
  function Ties(cmp: (string, string) -> int, k: string, s: seq<string>): seq<string>
  {
    if |s| == 0 then []
    else (if cmp(s[0], k) == 0 then [s[0]] else []) + Ties(cmp, k, s[1..])
  }

  lemma {:induction false} TiesAppend(cmp: (string, string) -> int, k: string, a: seq<string>, b: seq<string>)
    ensures Ties(cmp, k, a + b) == Ties(cmp, k, a) + Ties(cmp, k, b)
    decreases |a|
  {
    if |a| == 0 {
      assert a + b == b;
    } else {
      assert (a + b)[0] == a[0];
      assert (a + b)[1..] == a[1..] + b;
      TiesAppend(cmp, k, a[1..], b);
    }
  }

  /** Inserting `x` into a sorted list puts it after every key it ties with. */
  lemma {:induction false} InsertAfterTies(cmp: (string, string) -> int, k: string, x: string, s: seq<string>)
    requires Consistent(cmp) && SortedBy(cmp, s)
    ensures Ties(cmp, k, InsertBy(cmp, x, s)) == Ties(cmp, k, s) + Ties(cmp, k, [x])
    decreases |s|
  {
    if |s| == 0 {
      TiesSingle(cmp, k, x);
      assert InsertBy(cmp, x, s) == [x];
    } else if cmp(x, s[0]) < 0 {
      InsertInFront(cmp, k, x, s);
    } else {
      SortedTail(cmp, s);
      InsertAfterTies(cmp, k, x, s[1..]);
      InsertBehindHead(cmp, k, x, s);
    }
  }

  /** The step case of the insertion: `x` goes past the head, which keeps its
      place in front of the ties. */
  lemma InsertBehindHead(cmp: (string, string) -> int, k: string, x: string, s: seq<string>)
    requires |s| > 0 && cmp(x, s[0]) >= 0
    requires Ties(cmp, k, InsertBy(cmp, x, s[1..])) == Ties(cmp, k, s[1..]) + Ties(cmp, k, [x])
    ensures Ties(cmp, k, InsertBy(cmp, x, s)) == Ties(cmp, k, s) + Ties(cmp, k, [x])
  {
    var h, tail := s[0], s[1..];
    var t := InsertBy(cmp, x, tail);
    assert InsertBy(cmp, x, s) == [h] + t;
    TiesCons(cmp, k, h, t);
    TiesCons(cmp, k, h, tail);
    assert [h] + tail == s;
  }

  lemma TiesSingle(cmp: (string, string) -> int, k: string, x: string)
    ensures Ties(cmp, k, [x]) == (if cmp(x, k) == 0 then [x] else [])
  {
    assert [x][1..] == [];
  }

  lemma TiesCons(cmp: (string, string) -> int, k: string, x: string, s: seq<string>)
    ensures Ties(cmp, k, [x] + s) == (if cmp(x, k) == 0 then [x] else []) + Ties(cmp, k, s)
  {
    assert ([x] + s)[0] == x && ([x] + s)[1..] == s;
  }

  lemma SortedTail(cmp: (string, string) -> int, s: seq<string>)
    requires |s| > 0 && SortedBy(cmp, s)
    ensures SortedBy(cmp, s[1..])
  {
    forall i, j | 0 <= i < j < |s| - 1
      ensures cmp(s[1..][i], s[1..][j]) <= 0
    {
      assert s[1..][i] == s[i + 1] && s[1..][j] == s[j + 1];
    }
  }

  /** The front case of the insertion: `x` goes first, and ties nothing after it. */
  lemma InsertInFront(cmp: (string, string) -> int, k: string, x: string, s: seq<string>)
    requires Consistent(cmp) && SortedBy(cmp, s)
    requires |s| > 0 && cmp(x, s[0]) < 0
    ensures Ties(cmp, k, InsertBy(cmp, x, s)) == Ties(cmp, k, s) + Ties(cmp, k, [x])
  {
    TiesSingle(cmp, k, x);
    TiesCons(cmp, k, x, s);
    if cmp(x, k) == 0 {
      NoTiesAbove(cmp, k, x, s);
    }
  }

  /** When `x` is strictly below the head of a sorted list and ties with `k`,
      nothing in the list ties with `k`. */
  lemma {:induction false} NoTiesAbove(cmp: (string, string) -> int, k: string, x: string, s: seq<string>)
    requires Consistent(cmp) && SortedBy(cmp, s)
    requires |s| > 0 && cmp(x, s[0]) < 0 && cmp(x, k) == 0
    ensures Ties(cmp, k, s) == []
    decreases |s|
  {
    assert cmp(k, x) == 0;
    assert cmp(s[0], x) > 0;
    // otherwise s[0] is not after k, and k is not after x
    assert cmp(s[0], k) > 0;
    if |s| > 1 {
      assert cmp(s[0], s[1]) <= 0;
      // otherwise s[0] is not after s[1], and s[1] is not after x
      assert cmp(x, s[1]) < 0;
      NoTiesAbove(cmp, k, x, s[1..]);
    } else {
      assert s[1..] == [];
    }
  }

  /** The sort is stable: keys that tie keep their input order. */
  lemma {:induction false} SortByStable(cmp: (string, string) -> int, k: string, s: seq<string>)
    requires Consistent(cmp)
    ensures Ties(cmp, k, SortBy(cmp, s)) == Ties(cmp, k, s)
    decreases |s|
  {
    if |s| > 0 {
      var init, last := s[..|s| - 1], s[|s| - 1];
      SortByStable(cmp, k, init);
      SortBySorted(cmp, init);
      InsertAfterTies(cmp, k, last, SortBy(cmp, init));
      assert s == init + [last];
      TiesAppend(cmp, k, init, [last]);
    }
  }

  /** The album order of `regenerateAlbumList` with the intended comparator: a
      permutation of the keys, the root first if present, the rest ordered by
      name, and albums of the same name in the order they were listed. */
  function SortAlbums(albums: seq<string>): (r: seq<string>)
    ensures multiset(r) == multiset(albums)
    ensures Root in albums ==> |r| > 0 && r[0] == Root
    ensures forall i, j :: 0 <= i < j < |r| && r[i] != Root && r[j] != Root ==>
              !Below(AlbumName(r[j]), AlbumName(r[i]))
    ensures forall k :: Ties(CompareAlbums, k, r) == Ties(CompareAlbums, k, albums)
  {
    var r := SortBy(CompareAlbums, albums);
    CompareAlbumsIsConsistent();
    SortBySorted(CompareAlbums, albums);
    forall k
      ensures Ties(CompareAlbums, k, r) == Ties(CompareAlbums, k, albums)
    {
      SortByStable(CompareAlbums, k, albums);
    }
    assert forall i, j :: 0 <= i < j < |r| ==> CompareAlbums(r[i], r[j]) <= 0;
    if Root in albums then
      assert Root in multiset(r);
      var k :| 0 <= k < |r| && r[k] == Root;
      assert k > 0 ==> CompareAlbums(r[0], r[k]) <= 0;
      r
    else
      r
  }

  /** Two albums of the same name keep their listed order. */
  lemma SameNameKeepsOrder()
    ensures SortAlbums(["G:/Musique/A/Best", "G:/Musique/B/Best"])
         == ["G:/Musique/A/Best", "G:/Musique/B/Best"]
  {
    var a, b := "G:/Musique/A/Best", "G:/Musique/B/Best";
    assert [a, b][..1] == [a];
    SortSingle(CompareAlbums, a);
    InsertSameNameAfter();
    assert SortBy(CompareAlbums, [a, b]) == InsertBy(CompareAlbums, b, SortBy(CompareAlbums, [a]));
  }

  lemma InsertSameNameAfter()
    ensures InsertBy(CompareAlbums, "G:/Musique/B/Best", ["G:/Musique/A/Best"])
         == ["G:/Musique/A/Best", "G:/Musique/B/Best"]
  {
    var a, b := "G:/Musique/A/Best", "G:/Musique/B/Best";
    BestsTie();
    assert InsertBy(CompareAlbums, b, [a]) == [a] + InsertBy(CompareAlbums, b, [a][1..]);
    assert [a][1..] == [];
  }

  lemma BestsTie()
    ensures CompareAlbums("G:/Musique/B/Best", "G:/Musique/A/Best") == 0
  {
    NamesOfBest();
    BelowIrreflexive("Best");
    assert "G:/Musique/B/Best" != Root && "G:/Musique/A/Best" != Root by {
      assert |Root| == 10;
    }
  }

  lemma NamesOfBest()
    ensures AlbumName("G:/Musique/A/Best") == "Best"
    ensures AlbumName("G:/Musique/B/Best") == "Best"
  {
    assert "G:/Musique/A/Best" == "G:/Musique/A" + ['/'] + "Best";
    assert "G:/Musique/B/Best" == "G:/Musique/B" + ['/'] + "Best";
    LastSegmentAfter("G:/Musique/A", "Best", '/');
    LastSegmentAfter("G:/Musique/B", "Best", '/');
  }
}

=== FILE: catalog.dfy ===
/**
 The album catalog (`musicList`) built by `updateFilesList`: every scanned
 file name is split at its last '\\' into an album key (the leading directory
 pieces re-joined with '/') and a track name, and the track is appended to its
 album's list.
 */
module Catalog {
  import opened JsText
  import Player

  /** Album key to the track names found for it, in scan order. */
  type MusicList = map<string, seq<string>>

  /** The track name: the last '\\'-separated piece of the file name (`pop()`). */
  function TrackName(filename: string): (name: string)
    ensures '\\' !in name
    ensures |name| <= |filename| && name == filename[|filename| - |name|..]
    ensures |name| < |filename| ==> filename[|filename| - |name| - 1] == '\\'
    ensures '\\' !in filename ==> name == filename
  {
    LastSegment(filename, '\\')
  }

  /** The album key: the pieces before the last '\\', joined with '/'. */
  function AlbumKey(filename: string): (key: string)
    ensures '\\' !in key
    ensures '\\' !in filename ==> key == ""
  {
    var parts := Split(filename, '\\');
    if '\\' !in filename then
      SplitJoin([filename], '\\');
      Join(parts[..|parts| - 1], '/')
    else
      JoinFree(parts[..|parts| - 1], '/', '\\');
      Join(parts[..|parts| - 1], '/')
  }

  /** The album key, a '/', and the track name make up the scanned path again,
      once separators are normalised the way `_playMusic` does. */
  lemma AlbumAndTrackRebuildPath(filename: string)
    requires '\\' in filename
    ensures Player.Normalize(AlbumKey(filename) + "/" + TrackName(filename)) == Player.Normalize(filename)
  {
    var parts := Split(filename, '\\');
    var n := |parts|;
    JoinSplit(filename, '\\');
    assert n >= 2;
    var album := parts[..n - 1];
    JoinLast(parts, '\\');
    NormalizeJoin(album, '/');
    NormalizeJoin(album, '\\');
    ReplaceAllConcat(Join(album, '/') + "/", parts[n - 1], '/', '\\');
    ReplaceAllConcat(Join(album, '/'), "/", '/', '\\');
    ReplaceAllConcat(Join(album, '\\') + "\\", parts[n - 1], '/', '\\');
    ReplaceAllConcat(Join(album, '\\'), "\\", '/', '\\');
    assert TrackName(filename) == parts[n - 1];
  }

  /** Normalising a join with either separator gives the same string. */
  lemma {:induction false} NormalizeJoin(parts: seq<string>, sep: char)
    requires sep == '/' || sep == '\\'
    ensures Player.Normalize(Join(parts, sep)) == Player.Normalize(Join(parts, '\\'))
    decreases |parts|
  {
    if |parts| > 1 {
      NormalizeJoin(parts[1..], sep);
      ReplaceAllConcat(parts[0] + [sep], Join(parts[1..], sep), '/', '\\');
      ReplaceAllConcat(parts[0], [sep], '/', '\\');
      ReplaceAllConcat(parts[0] + ['\\'], Join(parts[1..], '\\'), '/', '\\');
      ReplaceAllConcat(parts[0], ['\\'], '/', '\\');
    }
  }

  /** The callback of `updateFilesList` for one scanned file: append the track
      to its album, creating the album's list if it is absent. */
  function AddFile(m: MusicList, filename: string): (r: MusicList)
    ensures r.Keys == m.Keys + {AlbumKey(filename)}
    ensures r[AlbumKey(filename)] ==
              (if AlbumKey(filename) in m then m[AlbumKey(filename)] else []) + [TrackName(filename)]
    ensures forall k :: k in m && k != AlbumKey(filename) ==> r[k] == m[k]
  {
    var key := AlbumKey(filename);
    var tracks := if key in m then m[key] else [];
    m[key := tracks + [TrackName(filename)]]
  }

  /** The track names of the files that belong to album `key`, in scan order. */
  function TracksOf(files: seq<string>, key: string): seq<string>
  {
    if |files| == 0 then []
    else
      var last := files[|files| - 1];
      TracksOf(files[..|files| - 1], key) + (if AlbumKey(last) == key then [TrackName(last)] else [])
  }

  /** `updateFilesList`: start from an empty catalog and add the files in scan
      order. The catalog has exactly the albums some scanned file belongs to,
      and each album lists exactly its files' track names, in scan order. */
  function Scan(files: seq<string>): (r: MusicList)
    ensures forall key :: key in r <==> TracksOf(files, key) != []
    ensures forall key :: key in r ==> r[key] == TracksOf(files, key)
    decreases |files|
  {
    if |files| == 0 then map[]
    else
      var init := files[..|files| - 1];
      var last := files[|files| - 1];
      var r := AddFile(Scan(init), last);
      assert forall key ::
               TracksOf(files, key) == TracksOf(init, key) + (if AlbumKey(last) == key then [TrackName(last)] else []);
      r
  }

  /** Every scanned file is listed under its album. */
  lemma ScanListsEveryFile(files: seq<string>, k: nat)
    requires k < |files|
    ensures AlbumKey(files[k]) in Scan(files)
    ensures TrackName(files[k]) in Scan(files)[AlbumKey(files[k])]
  {
    TracksOfContains(files, k);
  }

  lemma {:induction false} TracksOfContains(files: seq<string>, k: nat)
    requires k < |files|
    ensures TrackName(files[k]) in TracksOf(files, AlbumKey(files[k]))
    decreases |files|
  {
    if k < |files| - 1 {
      TracksOfContains(files[..|files| - 1], k);
    }
  }
}

=== FILE: clock.dfy ===
/**
 The elapsed/duration text of the renderer's `drawMusicStatus`: each time is
 shown as whole minutes, a ':', and the seconds within the minute padded to two
 digits, so the text reads back as the whole number of seconds.
 */
module Clock {
  import opened Wrappers
  import opened JsText

  /** `parseInt(('' + t).split('.')[0]) % 60`, left-padded with '0' below 10. */
  function SecondsField(t: real): (f: string)
    requires 0.0 <= t
    ensures |f| == 2 && AllDigits(f) && '0' <= f[0] <= '5'
    ensures DigitsValue(f) == ParseIntOf(t) % 60
  {
    var sec := Remainder(ParseIntOf(t), 60);
    if sec < 10 then
      assert DigitsValue("0" + Digits(sec)) == sec by {
        assert ("0" + Digits(sec))[..1] == "0";
      }
      "0" + Digits(sec)
    else
      assert Digits(sec) == Digits(sec / 10) + [DigitChar(sec % 10)];
      assert Digits(sec / 10) == [DigitChar(sec / 10)];
      Digits(sec)
  }

  /** `Math.floor(t / 60)`. */
  function MinutesField(t: real): (m: string)
    requires 0.0 <= t
    ensures AllDigits(m) && 1 <= |m|
    ensures DigitsValue(m) == ParseIntOf(t) / 60
    ensures m[0] == '0' ==> m == "0"
  {
    var minutes := (t / 60.0).Floor;
    WholeMinutes(t);
    Digits(minutes)
  }

  /** Minutes of the real time agree with minutes of its whole seconds. */
  lemma WholeMinutes(t: real)
    requires 0.0 <= t
    ensures (t / 60.0).Floor == t.Floor / 60
  {
    var s := t.Floor;
    var m := s / 60;
    assert m * 60 <= s < (m + 1) * 60;
    assert (m * 60) as real <= t;
    assert t < ((m + 1) * 60) as real;
    assert m as real <= t / 60.0 < (m + 1) as real;
  }

  /** One time as `drawMusicStatus` shows it: minutes, ':', two-digit seconds.
      Read back, the minutes times 60 plus the seconds give the whole seconds. */
  function FormatClock(t: real): (r: string)
    requires 0.0 <= t
    ensures |r| >= 4 && r[|r| - 3] == ':'
    ensures AllDigits(r[..|r| - 3]) && AllDigits(r[|r| - 2..])
    ensures '0' <= r[|r| - 2] <= '5'
    ensures r[0] == '0' ==> |r| == 4
    ensures DigitsValue(r[..|r| - 3]) * 60 + DigitsValue(r[|r| - 2..]) == ParseIntOf(t)
  {
    var m := MinutesField(t);
    var s := SecondsField(t);
    var r := m + ":" + s;
    assert r[..|r| - 3] == m;
    assert r[|r| - 2..] == s;
    r
  }

  /** What the status line shows. */
  datatype Status = Status(title: string, time: string)

  /** `drawMusicStatus`: no redraw while paused (when asked to check), a fixed
      text for an empty playlist, otherwise the title and `elapsed/duration`. */
  function DrawMusicStatus(checkPaused: bool, paused: bool, queueLength: nat, title: string,
                           elapsed: real, duration: real): (r: Option<Status>)
    requires 0.0 <= elapsed && 0.0 <= duration
    ensures checkPaused && paused ==> r.None?
    ensures !(checkPaused && paused) ==> r.Some?
    ensures r.Some? && queueLength == 0 ==> r.value == Status("Empty playlist", "0:00/0:00")
    ensures r.Some? && queueLength > 0 ==>
              && r.value.title == title
              && r.value.time == FormatClock(elapsed) + "/" + FormatClock(duration)
  {
    if checkPaused && paused then None
    else if queueLength == 0 then Some(Status("Empty playlist", "0:00/0:00"))
    else Some(Status(title, FormatClock(elapsed) + "/" + FormatClock(duration)))
  }

  /** The empty-playlist text is what two zero times would show. */
  lemma EmptyTextIsZeroClock()
    ensures FormatClock(0.0) + "/" + FormatClock(0.0) == "0:00/0:00"
  {
    assert Digits(0) == "0";
    assert FormatClock(0.0) == "0" + ":" + "0" + Digits(0);
  }
}

=== FILE: jstext.dfy ===
/**
 The JavaScript string and number primitives the player leans on: `split`,
 `join`, `replaceAll` with one-character patterns, string `<`, `parseInt` of a
 number, integer `%`, and the decimal rendering of a whole number.
 */
module JsText {

  /** `s.split(sep)`: the separator-free pieces of `s`, in order. */
  function Split(s: string, sep: char): (parts: seq<string>)
    ensures |parts| >= 1
    ensures forall k :: 0 <= k < |parts| ==> sep !in parts[k]
    decreases |s|
  {
    if |s| == 0 then [""]
    else
      var rest := Split(s[1..], sep);
      if s[0] == sep then [""] + rest
      else [[s[0]] + rest[0]] + rest[1..]
  }

  /** `parts.join(sep)`. */
  function Join(parts: seq<string>, sep: char): string
  {
    if |parts| == 0 then ""
    else if |parts| == 1 then parts[0]
    else parts[0] + [sep] + Join(parts[1..], sep)
  }

  /** Joining the pieces of a split with the same separator gives back the string. */
  lemma {:induction false} JoinSplit(s: string, sep: char)
    ensures Join(Split(s, sep), sep) == s
    decreases |s|
  {
    if |s| > 0 {
      var rest := Split(s[1..], sep);
      JoinSplit(s[1..], sep);
      if s[0] == sep {
        assert ([""] + rest)[1..] == rest;
      } else {
        var parts := [[s[0]] + rest[0]] + rest[1..];
        if |rest| > 1 {
          assert parts[1..] == rest[1..];
          assert Join(rest, sep) == rest[0] + [sep] + Join(rest[1..], sep);
          assert Join(parts, sep) == [s[0]] + (rest[0] + [sep] + Join(rest[1..], sep));
        }
        assert s == [s[0]] + s[1..];
      }
    }
  }

  /** Splitting a string that begins with a separator-free prefix `a`: `a` is glued to the first piece. */
  lemma {:induction false} SplitAfterPrefix(a: string, t: string, sep: char)
    requires sep !in a
    ensures Split(a + t, sep) == [a + Split(t, sep)[0]] + Split(t, sep)[1..]
    decreases |a|
  {
    if |a| == 0 {
      var parts := Split(t, sep);
      assert a + t == t;
      assert a + parts[0] == parts[0];
      assert parts == [parts[0]] + parts[1..];
    } else {
      assert (a + t)[1..] == a[1..] + t;
      SplitAfterPrefix(a[1..], t, sep);
      assert [a[0]] + (a[1..] + Split(t, sep)[0]) == a + Split(t, sep)[0];
    }
  }

  /** Splitting a join of separator-free pieces gives back the pieces. */
  lemma {:induction false} SplitJoin(parts: seq<string>, sep: char)
    requires |parts| >= 1
    requires forall k :: 0 <= k < |parts| ==> sep !in parts[k]
    ensures Split(Join(parts, sep), sep) == parts
    decreases |parts|
  {
    if |parts| == 1 {
      SplitAfterPrefix(parts[0], "", sep);
      assert parts[0] + "" == parts[0];
    } else {
      var tail := Join(parts[1..], sep);
      SplitJoin(parts[1..], sep);
      SplitAfterPrefix(parts[0], [sep] + tail, sep);
      assert parts[0] + [sep] + tail == parts[0] + ([sep] + tail);
      assert ([sep] + tail)[1..] == tail;
      assert Split([sep] + tail, sep) == [""] + parts[1..];
      assert parts[0] + "" == parts[0];
      assert parts == [parts[0]] + parts[1..];
    }
  }

  /** A join of at least two pieces ends with the separator and the last piece. */
  lemma {:induction false} JoinLast(parts: seq<string>, sep: char)
    requires |parts| >= 2
    ensures Join(parts, sep) == Join(parts[..|parts| - 1], sep) + [sep] + parts[|parts| - 1]
    decreases |parts|
  {
    if |parts| > 2 {
      JoinLast(parts[1..], sep);
      assert parts[1..][..|parts| - 2] == parts[..|parts| - 1][1..];
    }
  }

  /** A join introduces no character other than the separator. */
  lemma {:induction false} JoinFree(parts: seq<string>, sep: char, c: char)
    requires c != sep
    requires forall k :: 0 <= k < |parts| ==> c !in parts[k]
    ensures c !in Join(parts, sep)
    decreases |parts|
  {
    if |parts| > 1 {
      JoinFree(parts[1..], sep, c);
    }
  }

  /** The last piece of `s.split(sep)` (what `a[a.length - 1]` or `pop()` returns):
      the longest suffix of `s` without a separator. */
  function LastSegment(s: string, sep: char): (r: string)
    ensures sep !in r
    ensures |r| <= |s| && r == s[|s| - |r|..]
    ensures |r| < |s| ==> s[|s| - |r| - 1] == sep
  {
    var parts := Split(s, sep);
    JoinSplit(s, sep);
    if |parts| >= 2 then
      JoinLast(parts, sep);
      parts[|parts| - 1]
    else
      parts[0]
  }

  /** The last piece is whatever follows the last separator. */
  lemma LastSegmentAfter(a: string, b: string, sep: char)
    requires sep !in b
    ensures LastSegment(a + [sep] + b, sep) == b
  {
    var s := a + [sep] + b;
    var name := LastSegment(s, sep);
    assert s[|a|] == sep;
    assert forall k :: |a| < k < |s| ==> s[k] == b[k - |a| - 1];
    assert forall k :: |s| - |name| <= k < |s| ==> s[k] == name[k - (|s| - |name|)];
    assert |name| == |b|;
    assert s[|s| - |b|..] == b;
  }

  /** `s.replaceAll(from, to)` for one-character patterns. */
  function ReplaceAll(s: string, from: char, to: char): (r: string)
    ensures |r| == |s|
    ensures forall k :: 0 <= k < |s| ==> r[k] == if s[k] == from then to else s[k]
  {
    if |s| == 0 then ""
    else [if s[0] == from then to else s[0]] + ReplaceAll(s[1..], from, to)
  }

  /** Replacing characters commutes with concatenation. */
  lemma ReplaceAllConcat(a: string, b: string, from: char, to: char)
    ensures ReplaceAll(a + b, from, to) == ReplaceAll(a, from, to) + ReplaceAll(b, from, to)
  {
    var l := ReplaceAll(a + b, from, to);
    var r := ReplaceAll(a, from, to) + ReplaceAll(b, from, to);
    assert |l| == |r|;
    forall k | 0 <= k < |l|
      ensures l[k] == r[k]
    {
      if k < |a| {
        assert (a + b)[k] == a[k];
      } else {
        assert (a + b)[k] == b[k - |a|];
      }
    }
  }

  /** JavaScript's `a < b` on strings: lexicographic by character, a proper prefix first. */
  predicate Below(a: string, b: string)
    decreases |a|
  {
    if |a| == 0 then |b| > 0
    else if |b| == 0 then false
    else if a[0] != b[0] then a[0] < b[0]
    else Below(a[1..], b[1..])
  }

  lemma {:induction false} BelowIrreflexive(a: string)
    ensures !Below(a, a)
    decreases |a|
  {
    if |a| > 0 {
      BelowIrreflexive(a[1..]);
    }
  }

  lemma {:induction false} BelowAsymmetric(a: string, b: string)
    requires Below(a, b)
    ensures !Below(b, a)
    decreases |a|
  {
    if |a| > 0 && |b| > 0 && a[0] == b[0] {
      BelowAsymmetric(a[1..], b[1..]);
    }
  }

  lemma {:induction false} BelowTransitive(a: string, b: string, c: string)
    requires Below(a, b) && Below(b, c)
    ensures Below(a, c)
    decreases |a|
  {
    if |a| > 0 && a[0] == b[0] && b[0] == c[0] {
      BelowTransitive(a[1..], b[1..], c[1..]);
    }
  }

  lemma {:induction false} BelowTotal(a: string, b: string)
    ensures a == b || Below(a, b) || Below(b, a)
    decreases |a|
  {
    if |a| > 0 && |b| > 0 && a[0] == b[0] {
      BelowTotal(a[1..], b[1..]);
      assert a == [a[0]] + a[1..] && b == [b[0]] + b[1..];
    }
  }

  /** `parseInt` applied to a number: its integer part, truncated toward zero.
      (Numbers JavaScript prints in exponent notation are not modelled.) */
  function ParseIntOf(x: real): (n: int)
    ensures 0.0 <= x ==> 0 <= n && n as real <= x < n as real + 1.0
    ensures x < 0.0 ==> n <= 0 && n as real - 1.0 < x <= n as real
  {
    if x >= 0.0 then x.Floor else -((-x).Floor)
  }

  /** JavaScript's `a % n` on integers, for a positive `n` (a zero `n` gives NaN,
      which callers handle): the remainder takes the sign of the dividend. */
  function Remainder(a: int, n: int): (r: int)
    requires n > 0
    ensures 0 <= a ==> r == a % n
    ensures a < 0 ==> -n < r <= 0
  {
    if a >= 0 then a % n else -((-a) % n)
  }

  predicate IsDigit(c: char) {
    '0' <= c <= '9'
  }

  predicate AllDigits(s: string) {
    forall k :: 0 <= k < |s| ==> IsDigit(s[k])
  }

  function DigitChar(d: nat): (c: char)
    requires d < 10
    ensures IsDigit(c)
  {
    ('0' as int + d) as char
  }

  /** The number a string of decimal digits denotes. */
  function DigitsValue(s: string): nat
    requires AllDigits(s)
  {
    if |s| == 0 then 0
    else DigitsValue(s[..|s| - 1]) * 10 + (s[|s| - 1] as int - '0' as int)
  }

  /** `String(n)` for a whole number: its decimal digits without leading zeros;
      reading the digits back gives `n`. */
  function Digits(n: nat): (s: string)
    ensures 1 <= |s| && AllDigits(s)
    ensures DigitsValue(s) == n
    ensures s[0] == '0' ==> s == "0"
  {
    if n < 10 then [DigitChar(n)]
    else
      var high := Digits(n / 10);
      var s := high + [DigitChar(n % 10)];
      assert s[..|s| - 1] == high;
      s
  }
}

=== FILE: player.dfy ===
/**
 The main process's playlist state and the queue operations of its `Music`
 class: the current index and its wrap-around, the Fisher–Yates shuffle of the
 two parallel arrays, the `play` guard, the entry guards of `_playMusic`, and
 the current-track getters.

 The audio backend is reduced to the path of the loaded player: a load that
 passes the guards makes that path the loaded one.
 */
module Player {
  import opened Wrappers
  import opened JsText

  /** A JavaScript number used as an array index: an integer, or NaN once the
      index has been reduced modulo an empty playlist's length. */
  datatype Index = At(pos: int) | NotANumber

  predicate InRange(i: Index, n: int) {
    i.At? && 0 <= i.pos < n
  }

  /** `a[i]`: the element, or `undefined` (None) off either end or at NaN. */
  function Lookup(a: seq<string>, i: Index): (r: Option<string>)
    ensures r.Some? <==> InRange(i, |a|)
    ensures r.Some? ==> r.value == a[i.pos]
  {
    if InRange(i, |a|) then Some(a[i.pos]) else None
  }

  /** The playlist globals of the main process. */
  datatype Playlist = Playlist(
    titles: seq<string>,         // `playlist`: display titles in play order
    srcs: seq<string>,           // `playlistSrc`: file paths, parallel to `titles`
    orderedTitles: seq<string>,  // `orderedPlaylist`: titles in insertion order
    orderedSrcs: seq<string>,    // `orderedPlaylistSrc`
    current: Index,              // `playlistCurrent`
    random: bool)                // `playlistRandom`
  {
    /** Titles and paths are kept in parallel arrays of equal length. */
    predicate Parallel() {
      |titles| == |srcs| && |orderedTitles| == |orderedSrcs|
    }
  }

  /** The globals at start-up: empty arrays, index 0, shuffle off. */
  const Initial := Playlist([], [], [], [], At(0), false)

  /** The playlist with the path of the loaded player (`Music.player.src`);
      None when there is no player. */
  datatype Session = Session(playlist: Playlist, loaded: Option<string>)

  /** The outcome of a command: the new session, and the path handed to the
      audio backend if a load was started. */
  datatype Step = Step(session: Session, load: Option<string>)

  /*
   * Getters
   */

  /** `getCurrentMusicTitle`: the current title, '' when there is none. */
  function CurrentMusicTitle(p: Playlist): (t: string)
    ensures InRange(p.current, |p.titles|) ==> t == p.titles[p.current.pos]
    ensures !InRange(p.current, |p.titles|) ==> t == ""
  {
    Lookup(p.titles, p.current).GetOr("")
  }

  /** `getCurrentMusicPath`: the current path, '' when there is none. */
  function CurrentMusicPath(p: Playlist): (path: string)
    ensures InRange(p.current, |p.srcs|) ==> path == p.srcs[p.current.pos]
    ensures !InRange(p.current, |p.srcs|) ==> path == ""
  {
    Lookup(p.srcs, p.current).GetOr("")
  }

  /*
   * Index arithmetic
   */

  /** `(playlistCurrent + 1) % playlistSrc.length`: one step forward, from the
      last position back to the first. */
  function NextIndex(i: Index, n: nat): (r: Index)
    ensures n == 0 ==> r == NotANumber
    ensures InRange(i, n) ==> r == At(if i.pos == n - 1 then 0 else i.pos + 1)
    ensures !i.At? ==> r == NotANumber
    ensures n > 0 && i.At? && 0 <= i.pos ==> InRange(r, n)
  {
    match i
    case NotANumber => NotANumber
    case At(c) =>
      if n == 0 then NotANumber
      else
        assert 0 <= c < n - 1 ==> (c + 1) % n == c + 1;
        assert c == n - 1 ==> (c + 1) % n == 0;
        At(Remainder(c + 1, n))
  }

  /** `(playlistSrc.length + playlistCurrent - 1) % playlistSrc.length`: one step
      back, from the first position round to the last. */
  function PrevIndex(i: Index, n: nat): (r: Index)
    ensures n == 0 ==> r == NotANumber
    ensures InRange(i, n) ==> r == At(if i.pos == 0 then n - 1 else i.pos - 1)
    ensures !i.At? ==> r == NotANumber
    ensures n > 0 && i.At? && 1 - n <= i.pos ==> InRange(r, n)
  {
    match i
    case NotANumber => NotANumber
    case At(c) =>
      if n == 0 then NotANumber
      else
        assert c == 0 ==> (n + c - 1) % n == n - 1;
        assert 0 < c < n ==> (n + c - 1) % n == c - 1 by {
          if 0 < c < n {
            ModOnce(n + c - 1, n);
          }
        }
        At(Remainder(n + c - 1, n))
  }

  /** n <= a < 2n ==> a % n == a - n. */
  lemma ModOnce(a: int, n: int)
    requires 0 < n <= a < 2 * n
    ensures a % n == a - n
  {
    assert a == 1 * n + (a - n);
  }

  /** Next and previous undo each other on a valid index. */
  lemma NextPrevInverse(i: Index, n: nat)
    requires InRange(i, n)
    ensures PrevIndex(NextIndex(i, n), n) == i
    ensures NextIndex(PrevIndex(i, n), n) == i
  {
  }

  /*
   * Loading a track
   */

  /** The path normalisation of `_playMusic`: every '/' becomes '\\'. */
  function Normalize(path: string): (r: string)
    ensures |r| == |path| && '/' !in r
    ensures forall k :: 0 <= k < |path| && path[k] != '/' ==> r[k] == path[k]
    ensures forall k :: 0 <= k < |path| && path[k] == '/' ==> r[k] == '\\'
  {
    ReplaceAll(path, '/', '\\')
  }

  /** Normalising twice is normalising once. */
  lemma NormalizeIdempotent(path: string)
    ensures Normalize(Normalize(path)) == Normalize(path)
  {
  }

  /** The entry guards of `_playMusic`: the path to load, or None when the call
      returns early (no path, an empty path, or the loaded player already has it). */
  function PlayMusicTarget(path: Option<string>, loaded: Option<string>): (r: Option<string>)
    ensures path.None? || path == Some("") ==> r.None?
    ensures path.Some? && path.value != "" ==> (r.None? <==> loaded == Some(Normalize(path.value)))
    ensures r.Some? ==> path.Some? && r.value == Normalize(path.value) && r != loaded
  {
    match path
    case None => None
    case Some(p) =>
      if p == "" then None
      else
        var normal := Normalize(p);
        if loaded == Some(normal) then None else Some(normal)
  }

  /** `_playMusic(path)`: a path that passes the guards is handed to the backend
      and becomes the loaded player's path; otherwise nothing changes. */
  function PlayMusic(s: Session, path: Option<string>): (r: Step)
    ensures r.session.playlist == s.playlist
    ensures r.load.None? ==> r.session == s
    ensures r.load.Some? ==> path.Some? && r.session.loaded == r.load && r.load.value == Normalize(path.value)
    ensures r.load.None? <==> PlayMusicTarget(path, s.loaded).None?
  {
    match PlayMusicTarget(path, s.loaded)
    case None => Step(s, None)
    case Some(p) => Step(s.(loaded := Some(p)), Some(p))
  }

  /** `play`: on a non-empty playlist, `_playMusic` of the current path. */
  function Play(s: Session): (r: Step)
    ensures |s.playlist.srcs| == 0 ==> r == Step(s, None)
    ensures r.session.playlist == s.playlist
    ensures r.load.Some? ==> r.load == Some(Normalize(CurrentMusicPath(s.playlist)))
    ensures InRange(s.playlist.current, |s.playlist.srcs|) && CurrentMusicPath(s.playlist) != ""
              && s.loaded != Some(Normalize(CurrentMusicPath(s.playlist)))
            ==> r.load.Some?
    ensures r.load.None? ==> r.session == s
    ensures r.load.Some? ==> r.session.loaded == r.load
    ensures |s.playlist.srcs| > 0 ==>
              (r.load.None? <==> PlayMusicTarget(Lookup(s.playlist.srcs, s.playlist.current), s.loaded).None?)
  {
    if |s.playlist.srcs| > 0 then PlayMusic(s, Lookup(s.playlist.srcs, s.playlist.current))
    else Step(s, None)
  }

  /** A second `play` with nothing in between starts no second load. */
  lemma PlayTwiceLoadsOnce(s: Session)
    ensures Play(Play(s).session) == Step(Play(s).session, None)
  {
  }

  /** `playNextMusic`: drop the player, step the index forward, load the new current path. */
  function PlayNextMusic(s: Session): (r: Step)
    ensures r.session.playlist == s.playlist.(current := NextIndex(s.playlist.current, |s.playlist.srcs|))
    ensures CurrentMusicPath(r.session.playlist) != "" ==>
              r.load == Some(Normalize(CurrentMusicPath(r.session.playlist)))
    ensures CurrentMusicPath(r.session.playlist) == "" ==> r.load.None?
    ensures r.load.None? ==> r.session.loaded.None?
    ensures r.load.Some? ==> r.session.loaded == r.load
    ensures |s.playlist.srcs| == 0 ==> r.load.None? && r.session.loaded.None?
  {
    var p := s.playlist.(current := NextIndex(s.playlist.current, |s.playlist.srcs|));
    PlayMusic(Session(p, None), Lookup(p.srcs, p.current))
  }

  /** `playPrevMusic`: drop the player, step the index back, load the new current path. */
  function PlayPrevMusic(s: Session): (r: Step)
    ensures r.session.playlist == s.playlist.(current := PrevIndex(s.playlist.current, |s.playlist.srcs|))
    ensures CurrentMusicPath(r.session.playlist) != "" ==>
              r.load == Some(Normalize(CurrentMusicPath(r.session.playlist)))
    ensures CurrentMusicPath(r.session.playlist) == "" ==> r.load.None?
    ensures r.load.None? ==> r.session.loaded.None?
    ensures r.load.Some? ==> r.session.loaded == r.load
    ensures |s.playlist.srcs| == 0 ==> r.load.None? && r.session.loaded.None?
  {
    var p := s.playlist.(current := PrevIndex(s.playlist.current, |s.playlist.srcs|));
    PlayMusic(Session(p, None), Lookup(p.srcs, p.current))
  }

  /** At start-up the playlist is empty: `play` does nothing, and a next or
      previous press turns the index into NaN (`x % 0`). A NaN index stays NaN
      through every later step, whatever the playlist holds by then, and the
      getters report no track. */
  lemma StartUpStepLosesIndex(p: Playlist)
    ensures Play(Session(Initial, None)) == Step(Session(Initial, None), None)
    ensures PlayNextMusic(Session(Initial, None)).session.playlist.current == NotANumber
    ensures PlayPrevMusic(Session(Initial, None)).session.playlist.current == NotANumber
    ensures p.current == NotANumber ==>
              && NextIndex(p.current, |p.srcs|) == NotANumber
              && PrevIndex(p.current, |p.srcs|) == NotANumber
              && CurrentMusicPath(p) == "" && CurrentMusicTitle(p) == ""
  {
  }

  /** Next then previous comes back to the same track, and reloads it. */
  lemma NextThenPrevReturns(s: Session)
    requires InRange(s.playlist.current, |s.playlist.srcs|) && CurrentMusicPath(s.playlist) != ""
    ensures PlayPrevMusic(PlayNextMusic(s).session).session.playlist == s.playlist
    ensures PlayPrevMusic(PlayNextMusic(s).session).load == Some(Normalize(CurrentMusicPath(s.playlist)))
  {
    NextPrevInverse(s.playlist.current, |s.playlist.srcs|);
  }

  /*
   * Shuffle
   */

  /** `Math.floor(Math.random() * (i + 1))`, for the draw `roll` of `Math.random()`. */
  function SwapPartner(roll: real, i: nat): (j: int)
    requires 0.0 <= roll < 1.0
    ensures 0 <= j <= i
  {
    var k := (i + 1) as real;
    var x := roll * k;
    assert k - x == (1.0 - roll) * k;
    assert (1.0 - roll) * k > 0.0;
    x.Floor
  }

  /** Every draw of `Math.random()` lies in [0, 1). */
  predicate ValidRolls(rolls: seq<real>) {
    forall k :: 0 <= k < |rolls| ==> 0.0 <= rolls[k] < 1.0
  }

  /** The three-assignment swap through a temporary. */
  function Swap<T>(a: seq<T>, i: nat, j: nat): (r: seq<T>)
    requires i < |a| && j < |a|
    ensures |r| == |a| && r[i] == a[j] && r[j] == a[i]
    ensures forall k :: 0 <= k < |a| && k != i && k != j ==> r[k] == a[k]
    ensures multiset(r) == multiset(a)
  {
    a[i := a[j]][j := a[i]]
  }

  /** The index bookkeeping of a swap of positions `i` and `j`. */
  function FollowSwap(cur: Index, i: int, j: int): Index
  {
    if cur == At(i) then At(j) else if cur == At(j) then At(i) else cur
  }

  /** Title/path pairs, position by position. */
  function Pairs(titles: seq<string>, srcs: seq<string>): (r: seq<(string, string)>)
    requires |titles| == |srcs|
    ensures |r| == |titles|
    ensures forall k :: 0 <= k < |r| ==> r[k] == (titles[k], srcs[k])
  {
    seq(|titles|, k requires 0 <= k < |titles| => (titles[k], srcs[k]))
  }

  /** Swapping both arrays in lockstep swaps the title/path pairs. */
  lemma SwapKeepsPairs(titles: seq<string>, srcs: seq<string>, i: nat, j: nat)
    requires |titles| == |srcs| && i < |titles| && j < |titles|
    ensures multiset(Pairs(Swap(titles, i, j), Swap(srcs, i, j))) == multiset(Pairs(titles, srcs))
  {
    assert Pairs(Swap(titles, i, j), Swap(srcs, i, j)) == Swap(Pairs(titles, srcs), i, j);
  }

  /** After a lockstep swap, the followed index still points at the same title and path. */
  lemma FollowSwapTracks(p: Playlist, i: nat, j: nat)
    requires |p.titles| == |p.srcs| && i < |p.titles| && j < |p.titles|
    ensures var c := FollowSwap(p.current, i, j);
            InRange(p.current, |p.srcs|) ==>
              InRange(c, |p.srcs|)
              && Swap(p.srcs, i, j)[c.pos] == p.srcs[p.current.pos]
              && Swap(p.titles, i, j)[c.pos] == p.titles[p.current.pos]
    ensures !InRange(p.current, |p.srcs|) ==> FollowSwap(p.current, i, j) == p.current
  {
  }

  /** The Fisher–Yates loop of `_shufflePlaylist` for positions `i` down to 1;
      `rolls[i]` is the `Math.random()` draw made at position `i`. */
  function ShuffleFrom(p: Playlist, rolls: seq<real>, i: int): (r: Playlist)
    requires |p.titles| == |p.srcs| == |rolls| && ValidRolls(rolls)
    requires -1 <= i < |p.titles|
    ensures r == p.(titles := r.titles, srcs := r.srcs, current := r.current)
    ensures |r.titles| == |p.titles| && |r.srcs| == |p.srcs|
    ensures multiset(r.srcs) == multiset(p.srcs)
    ensures multiset(Pairs(r.titles, r.srcs)) == multiset(Pairs(p.titles, p.srcs))
    ensures InRange(p.current, |p.srcs|) ==>
              InRange(r.current, |r.srcs|)
              && r.srcs[r.current.pos] == p.srcs[p.current.pos]
              && r.titles[r.current.pos] == p.titles[p.current.pos]
    ensures !InRange(p.current, |p.srcs|) ==> r.current == p.current
    decreases i
  {
    if i <= 0 then p
    else
      var j := SwapPartner(rolls[i], i);
      var next := p.(titles := Swap(p.titles, i, j), srcs := Swap(p.srcs, i, j),
                     current := FollowSwap(p.current, i, j));
      SwapKeepsPairs(p.titles, p.srcs, i, j);
      FollowSwapTracks(p, i, j);
      ShuffleFrom(next, rolls, i - 1)
  }

  /** `_shufflePlaylist`: a permutation of the active arrays that keeps every
      title with its path and keeps the current index on the same track. */
  function Shuffle(p: Playlist, rolls: seq<real>): (r: Playlist)
    requires |p.titles| == |p.srcs| == |rolls| && ValidRolls(rolls)
    ensures |r.titles| == |r.srcs|
    ensures p.Parallel() ==> r.Parallel()
    ensures r == p.(titles := r.titles, srcs := r.srcs, current := r.current)
    ensures |r.srcs| == |p.srcs|
    ensures multiset(r.srcs) == multiset(p.srcs)
    ensures multiset(Pairs(r.titles, r.srcs)) == multiset(Pairs(p.titles, p.srcs))
    ensures InRange(p.current, |p.srcs|) ==>
              InRange(r.current, |r.srcs|) && r.srcs[r.current.pos] == p.srcs[p.current.pos]
    ensures !InRange(p.current, |p.srcs|) ==> r.current == p.current
  {
    ShuffleFrom(p, rolls, |p.titles| - 1)
  }

  /** Shuffling never changes what the getters report as the current track. */
  lemma ShuffleKeepsCurrentTrack(p: Playlist, rolls: seq<real>)
    requires |p.titles| == |p.srcs| == |rolls| && ValidRolls(rolls)
    ensures CurrentMusicPath(Shuffle(p, rolls)) == CurrentMusicPath(p)
    ensures CurrentMusicTitle(Shuffle(p, rolls)) == CurrentMusicTitle(p)
  {
    var r := ShuffleFrom(p, rolls, |p.titles| - 1);
    assert r == Shuffle(p, rolls);
  }
}

=== FILE: scores.dfy ===
/**
 The listening-score update of the renderer's `applyMusicChange`: when a track
 is left, its entry in `musicScores` gets one more play and the share of the
 track that was heard.
 */
module Scores {
  import opened JsText

  /** One entry of `musicScores`: how often the track was left and the
      accumulated heard share. */
  datatype Score = Score(count: int, scoreSum: real)

  /** The player's `duration`: a number of seconds, or NaN while unknown. */
  datatype Duration = Measured(seconds: real) | NaN

  /** The entry a track without one starts from. */
  const Fresh := Score(0, 0.0)

  function Prior(scores: map<string, Score>, path: string): Score
  {
    if path in scores then scores[path] else Fresh
  }

  /** The entry update as the source writes it: both fields go through
      `parseInt` before the increment, so `scoreSum` loses its fraction. */
  function Record(e: Score, ratio: real): (r: Score)
    ensures r.count == e.count + 1
    ensures r.scoreSum == ParseIntOf(e.scoreSum) as real + ratio
    ensures 0.0 <= e.scoreSum ==> e.scoreSum - 1.0 + ratio < r.scoreSum <= e.scoreSum + ratio
  {
    Score(ParseIntOf(e.count as real) + 1, ParseIntOf(e.scoreSum) as real + ratio)
  }

  /** `applyMusicChange` for the current path, the player's elapsed time and its
      duration: nothing happens for an empty path or a NaN duration; otherwise
      the path's entry (created empty if absent) is recorded and no other entry
      changes. */
  function ApplyMusicChange(scores: map<string, Score>, path: string, elapsed: real, duration: Duration)
    : (r: map<string, Score>)
    requires duration.Measured? ==> duration.seconds != 0.0
    ensures path == "" || duration.NaN? ==> r == scores
    ensures path != "" && duration.Measured? ==>
              && r.Keys == scores.Keys + {path}
              && r[path].count == Prior(scores, path).count + 1
              && r[path].scoreSum == ParseIntOf(Prior(scores, path).scoreSum) as real + elapsed / duration.seconds
              && (path !in scores ==> r[path] == Score(1, elapsed / duration.seconds))
    ensures forall k :: k in scores && k != path ==> k in r && r[k] == scores[k]
  {
    if path == "" || duration.NaN? then scores
    else scores[path := Record(Prior(scores, path), elapsed / duration.seconds)]
  }

  /** The entry after a track has been left with the given heard shares, one
      after the other, starting from no entry. */
  function Replay(ratios: seq<real>): Score
  {
    if |ratios| == 0 then Fresh
    else Record(Replay(ratios[..|ratios| - 1]), ratios[|ratios| - 1])
  }

  /** As written, the stored sum forgets everything but the last share as long as
      no share reaches 1: `parseInt` drops the fraction before each addition. */
  lemma {:induction false} ReplayKeepsOnlyLastShare(ratios: seq<real>)
    requires |ratios| > 0
    requires forall k :: 0 <= k < |ratios| ==> 0.0 <= ratios[k] < 1.0
    ensures Replay(ratios).count == |ratios|
    ensures Replay(ratios).scoreSum == ratios[|ratios| - 1]
    decreases |ratios|
  {
    var init := ratios[..|ratios| - 1];
    if |init| > 0 {
      ReplayKeepsOnlyLastShare(init);
      assert init[|init| - 1] == ratios[|ratios| - 2];
    }
  }

  /** Two half-heard plays: the source stores 0.5, the intended sum is 1.0. */
  lemma ReplayLosesHistory()
    ensures Replay([0.5, 0.5]).scoreSum == 0.5
    ensures ReplayIntended([0.5, 0.5]).scoreSum == 1.0
  {
    ReplayKeepsOnlyLastShare([0.5, 0.5]);
    ReplayIntendedSums([0.5, 0.5]);
    assert [0.5, 0.5][..1] == [0.5];
    assert [0.5][..0] == [];
  }

  /*
   * The update as evidently intended: the share is added to the whole sum.
   */

  function RecordIntended(e: Score, ratio: real): Score
  {
    Score(e.count + 1, e.scoreSum + ratio)
  }

  /** `applyMusicChange` with the sum kept whole. */
  function ApplyMusicChangeIntended(scores: map<string, Score>, path: string, elapsed: real, duration: Duration)
    : (r: map<string, Score>)
    requires duration.Measured? ==> duration.seconds != 0.0
    ensures path == "" || duration.NaN? ==> r == scores
    ensures path != "" && duration.Measured? ==>
              && r.Keys == scores.Keys + {path}
              && r[path].count == Prior(scores, path).count + 1
              && r[path].scoreSum == Prior(scores, path).scoreSum + elapsed / duration.seconds
    ensures forall k :: k in scores && k != path ==> k in r && r[k] == scores[k]
  {
    if path == "" || duration.NaN? then scores
    else scores[path := RecordIntended(Prior(scores, path), elapsed / duration.seconds)]
  }

  function ReplayIntended(ratios: seq<real>): Score
  {
    if |ratios| == 0 then Fresh
    else RecordIntended(ReplayIntended(ratios[..|ratios| - 1]), ratios[|ratios| - 1])
  }

  function Sum(ratios: seq<real>): real
  {
    if |ratios| == 0 then 0.0 else Sum(ratios[..|ratios| - 1]) + ratios[|ratios| - 1]
  }

  /** With the intended update the entry holds the number of plays and the sum
      of all heard shares, so `scoreSum / count` is the mean share. */
  lemma {:induction false} ReplayIntendedSums(ratios: seq<real>)
    ensures ReplayIntended(ratios) == Score(|ratios|, Sum(ratios))
    decreases |ratios|
  {
    if |ratios| > 0 {
      ReplayIntendedSums(ratios[..|ratios| - 1]);
    }
  }

  /** With shares in [0, 1] the intended mean share stays in [0, 1]. */
  lemma {:induction false} IntendedMeanIsAShare(ratios: seq<real>)
    requires forall k :: 0 <= k < |ratios| ==> 0.0 <= ratios[k] <= 1.0
    ensures 0.0 <= Sum(ratios) <= |ratios| as real
    decreases |ratios|
  {
    if |ratios| > 0 {
      IntendedMeanIsAShare(ratios[..|ratios| - 1]);
    }
  }
}

=== FILE: toggle.dfy ===
/**
 The renderer's `toggleRandom`: turning shuffle on runs the main process's
 shuffle; turning it off copies the ordered arrays back and finds the current
 track again by a linear search over the ordered paths.
 */
module ShuffleToggle {
  import opened Wrappers
  import opened Player

  /** The loop of the shuffle-off branch, from position `from` on: the first
      position whose path is `target`. An `undefined` target matches nothing. */
  function FindFrom(a: seq<string>, target: Option<string>, from: nat): (r: Option<nat>)
    requires from <= |a|
    ensures r.Some? ==> from <= r.value < |a| && Some(a[r.value]) == target
    ensures r.Some? ==> forall k :: from <= k < r.value ==> Some(a[k]) != target
    ensures r.None? ==> forall k :: from <= k < |a| ==> Some(a[k]) != target
    decreases |a| - from
  {
    if from == |a| then None
    else if Some(a[from]) == target then Some(from)
    else FindFrom(a, target, from + 1)
  }

  /** The shuffle-off branch: the active arrays become copies of the ordered
      ones, and the index moves to the first ordered position holding the
      current path; when the path is not there the index is left as it was. */
  function RestoreOrder(p: Playlist): (r: Playlist)
    ensures r.titles == p.orderedTitles && r.srcs == p.orderedSrcs
    ensures r.orderedTitles == p.orderedTitles && r.orderedSrcs == p.orderedSrcs && r.random == p.random
    ensures InRange(p.current, |p.srcs|) && p.srcs[p.current.pos] in p.orderedSrcs ==>
              && InRange(r.current, |r.srcs|)
              && r.srcs[r.current.pos] == p.srcs[p.current.pos]
              && forall k :: 0 <= k < r.current.pos ==> p.orderedSrcs[k] != p.srcs[p.current.pos]
    ensures !(InRange(p.current, |p.srcs|) && p.srcs[p.current.pos] in p.orderedSrcs) ==>
              r.current == p.current
  {
    var cur :=
      match FindFrom(p.orderedSrcs, Lookup(p.srcs, p.current), 0)
      case Some(i) => At(i)
      case None => p.current;
    p.(titles := p.orderedTitles, srcs := p.orderedSrcs, current := cur)
  }

  /** `toggleRandom` as evidently intended: the flag is `!` of the awaited
      `isPlaylistRandom`, so it flips; on, shuffle the active arrays; off,
      restore the ordered ones. */
  function ToggleRandom(p: Playlist, rolls: seq<real>): (r: Playlist)
    requires p.Parallel() && |rolls| == |p.srcs| && ValidRolls(rolls)
    ensures r.random == !p.random
    ensures r.Parallel()
    ensures r.orderedTitles == p.orderedTitles && r.orderedSrcs == p.orderedSrcs
    ensures !p.random ==> multiset(r.srcs) == multiset(p.srcs) && CurrentMusicPath(r) == CurrentMusicPath(p)
    ensures p.random ==> r.titles == p.orderedTitles && r.srcs == p.orderedSrcs
    ensures p.random && InRange(p.current, |p.srcs|) && p.srcs[p.current.pos] in p.orderedSrcs ==>
              CurrentMusicPath(r) == CurrentMusicPath(p)
    ensures p.random && !(InRange(p.current, |p.srcs|) && p.srcs[p.current.pos] in p.orderedSrcs) ==>
              r.current == p.current
  {
    if !Truthy(Await(IsPlaylistRandom(p))) then
      ShuffleKeepsCurrentTrack(p, rolls);
      Shuffle(p, rolls).(random := true)
    else
      RestoreOrder(p).(random := false)
  }

  /** Shuffle on and then off again, starting unshuffled: the active arrays are
      the ordered ones again and the same track path is current. */
  lemma ToggleTwiceRestores(p: Playlist, rolls: seq<real>, rolls': seq<real>)
    requires p.Parallel() && |rolls| == |p.srcs| && ValidRolls(rolls)
    requires |rolls'| == |p.srcs| && ValidRolls(rolls')
    requires !p.random && p.titles == p.orderedTitles && p.srcs == p.orderedSrcs
    ensures var q := ToggleRandom(ToggleRandom(p, rolls), rolls');
            && q.titles == p.titles && q.srcs == p.srcs && !q.random
            && CurrentMusicPath(q) == CurrentMusicPath(p)
  {
    var s := ToggleRandom(p, rolls);
    ShuffleKeepsCurrentTrack(p, rolls);
    assert s == Shuffle(p, rolls).(random := true);
    if InRange(s.current, |s.srcs|) {
      assert s.srcs[s.current.pos] in s.srcs;
      assert multiset(s.srcs) == multiset(p.srcs);
      assert s.srcs[s.current.pos] in multiset(p.srcs);
    }
  }

  /*
   * `toggleRandom` as the source writes it.
   */

  /** A JavaScript value as the renderer sees it. */
  datatype JsValue = Boolean(b: bool) | Promise(resolvesTo: bool)

  /** JavaScript truthiness: a promise object is always truthy. */
  predicate Truthy(v: JsValue) {
    match v
    case Boolean(b) => b
    case Promise(_) => true
  }

  /** The main process's `isPlaylistRandom` is `async`, so a call returns a promise. */
  function IsPlaylistRandom(p: Playlist): (r: JsValue)
    ensures r.Promise? && r.resolvesTo == p.random
    ensures Truthy(r)
  {
    Promise(p.random)
  }

  /** `await v`: the value a promise resolves to; any other value as it is. */
  function Await(v: JsValue): (r: JsValue)
    ensures r.Boolean?
    ensures v.Promise? ==> r.b == v.resolvesTo
    ensures v.Boolean? ==> r == v
  {
    match v
    case Promise(b) => Boolean(b)
    case Boolean(_) => v
  }

  /** `toggleRandom` as written: the new flag is `!` of the promise, so it is
      always false and the branch that would call the shuffle is dead (the
      `assert false` there is proved). */
  function ToggleRandomAsWritten(p: Playlist): (r: Playlist)
    ensures !r.random
    ensures r.titles == p.orderedTitles && r.srcs == p.orderedSrcs
  {
    var random := !Truthy(IsPlaylistRandom(p));
    if random then assert false; p else RestoreOrder(p).(random := random)
  }

  /** As written, the toggle never turns shuffle on: from an unshuffled state it
      stays unshuffled, where the intended toggle turns shuffle on. */
  lemma ToggleRandomAsWrittenNeverShuffles(p: Playlist, rolls: seq<real>)
    requires p.Parallel() && |rolls| == |p.srcs| && ValidRolls(rolls)
    ensures ToggleRandomAsWritten(p) == RestoreOrder(p).(random := false)
    ensures !p.random ==> !ToggleRandomAsWritten(p).random && ToggleRandom(p, rolls).random
  {
  }
}

=== FILE: volume.dfy ===
/**
 The renderer's volume buttons: the stored percentage moves in steps of 2 and
 stops at 0 and at 100.
 */
module Volume {
  import opened Wrappers

  /** The volume used when none was stored. */
  const DefaultVolume := 50

  /** A volume the buttons can reach from the default: even, within 0..100. */
  predicate OnScale(v: int) {
    0 <= v <= 100 && v % 2 == 0
  }

  /** The `audioVolume` initialisation of `init`: the stored value, or 50 when
      none is stored. */
  function InitialVolume(stored: Option<int>): (v: int)
    ensures stored.None? ==> v == DefaultVolume && OnScale(v)
    ensures stored.Some? ==> v == stored.value
  {
    stored.GetOr(DefaultVolume)
  }

  /** `increaseVolume`: up by 2 unless already at 100 or above. */
  function IncreaseVolume(v: int): (r: int)
    ensures v >= 100 ==> r == v
    ensures v < 100 ==> r == v + 2
    ensures OnScale(v) ==> OnScale(r)
  {
    if v >= 100 then v else v + 2
  }

  /** `decreaseVolume`: down by 2 unless already at 0 or below. */
  function DecreaseVolume(v: int): (r: int)
    ensures v <= 0 ==> r == v
    ensures v > 0 ==> r == v - 2
    ensures OnScale(v) ==> OnScale(r)
  {
    if v <= 0 then v else v - 2
  }

  /** Up and down undo each other away from the stops. */
  lemma StepsUndo(v: int)
    ensures 0 <= v < 100 ==> DecreaseVolume(IncreaseVolume(v)) == v
    ensures 0 < v <= 100 ==> IncreaseVolume(DecreaseVolume(v)) == v
  {
  }

  /** The up/down buttons and arrow keys. */
  datatype Key = Up | Down

  /** The volume after a sequence of presses. */
  function PressAll(v: int, keys: seq<Key>): int
  {
    if |keys| == 0 then v
    else
      var w := PressAll(v, keys[..|keys| - 1]);
      if keys[|keys| - 1] == Up then IncreaseVolume(w) else DecreaseVolume(w)
  }

  /** From an even volume in 0..100, no sequence of presses leaves 0..100. */
  lemma {:induction false} PressesStayOnScale(v: int, keys: seq<Key>)
    requires OnScale(v)
    ensures OnScale(PressAll(v, keys))
    decreases |keys|
  {
    if |keys| > 0 {
      PressesStayOnScale(v, keys[..|keys| - 1]);
    }
  }

  /** The bound relies on the volume being even: a stored 99 goes up to 101. */
  lemma OddVolumeOvershoots()
    ensures IncreaseVolume(99) == 101
  {
  }
}

=== FILE: wrappers.dfy ===
/** Option, standing for JavaScript's `undefined` and for searches that may fail. */
module Wrappers {

  datatype Option<+T> = None | Some(value: T) {

    /** The carried value, or `default` when there is none (JavaScript's `x || default`). */
    function GetOr(default: T): T {
      match this
      case Some(v) => v
      case None => default
    }
  }
}
